=== FILE: README.md ===
# D'Hillsview hotel site: booking form and admin dashboard logic in Dafny

This project models the pure logic inside the hotel website's two scripts.
The public booking page (`script.js`) has the nights and price arithmetic,
the price summary panel, the check-in change handler, the booking-form
validators, the hero search date check, the room-name price lookup and
`formatDate`. The admin dashboard (`admin.js`) has the headline statistics,
the guest directory, the bookings filter, the per-status action buttons, and
the inventory and pricing updates.

All DOM, database and e-mail plumbing is stripped away. Each piece of logic is
a pure function over plain datatypes:

- dates are integer day numbers (`Dates.Day`), except in `formatDate`, which
  works on the calendar fields a JavaScript `Date` reports;
- money is `int`, because `savePricing` accepts negative `parseInt` results;
- an empty form field or an unparseable number is `None`;
- a rejected operation is a `Failure`.

JavaScript built-ins that the logic relies on are modelled as well:

- `parseInt(s, 10)`, `String(n)` and `padStart`, in module `Numerals`;
- `trim`, `includes`, `toLowerCase` and UTF-16 `length`, in module `Text`.

Modules, one per concern:

- `Results`: `Option` and `Result`.
- `Text`, `Numerals`, `Dates`: string, number and date helpers.
- `RoomPricing`: room types, prices and the keyword lookup.
- `EmailPattern`: the e-mail regular expression and a scan proved equivalent to it.
- `BookingForm`: the public booking page.
- `AdminBookings`: the booking record as the dashboard reads it, plus reference folds.
- `GuestDirectory`: grouping bookings by e-mail.
- `Dashboard`: statistics, tables, action buttons and the filter.
- `Settings`: inventory and price editing.

A booking submitted from the public form is saved with status `confirmed`.

## Model

| member | source | states |
|---|---|---|
| Text.Trim | script.js:375 | `trim` returns the slice of the input between its leading and trailing whitespace; the slice starts and ends with non-whitespace and is the input itself when there is no whitespace |
| Text.TrimIdempotent | script.js:375-378 | trimming an already trimmed value changes nothing |
| Numerals.ParseIntRoundTrip | script.js:261 | `parseInt` of the decimal spelling of any integer gives back that integer |
| Numerals.ParseIntRejectsNonNumeric | admin.js:360-362 | `parseInt` is `NaN` when the first non-blank character is neither a digit nor a sign |
| Dates.FormatDate | script.js:236-241 | `formatDate` is the year, `-`, the 1-based month in two zero-padded digits, `-`, the day in two zero-padded digits |
| Dates.FormatDateRoundTrip | script.js:236-241 | parsing a formatted date recovers the year, 0-based month and day |
| Dates.StayNightsCount | script.js:247 | a stay from check-in to a later check-out covers exactly check-out minus check-in nights |
| BookingForm.NightsCountsStay | script.js:243-249 | nights are at least 1; they equal the nights occupied when check-out follows check-in; they are 1 when a date is missing or check-out is not later |
| BookingForm.TotalChargesEachNight | script.js:269-271 | the total is the add-on cost plus one room charge per night; no tax is added |
| BookingForm.Summarize | script.js:254-324 | the summary is shown iff a room is selected and its price is non-zero; it shows the room, its nightly price and the nights; its total is the nights cost plus the add-on cost; the add-on line appears iff the add-on has a name and a non-zero cost, and then shows that name and cost |
| BookingForm.DefaultDates | script.js:158-167 | check-in defaults to tomorrow and check-out to three days out; check-in may not be before today and check-out not before tomorrow; the defaults respect their minimums, pass validation and give two nights |
| BookingForm.OnCheckInChange | script.js:169-176 | after a check-in change, the minimum check-out is check-in + 1; an earlier or equal check-out is reset to that minimum; a later one is kept; an empty one stays empty |
| BookingForm.OnCheckInChangeAsWritten | script.js:206-212 | the handler with the UTC/local mix of `new Date(value)` and `getDate`/`setDate`: east of UTC or at UTC it is `OnCheckInChange`; west of UTC the new minimum is the check-in day itself, a check-out on or before check-in is reset to the check-in day, and a later or empty check-out is kept; with no check-in the minimum is unset and the check-out unchanged |
| BookingForm.WestOfUtcResetIsRejected | script.js:206-212 | west of UTC a check-out on or before check-in is reset to the check-in day, which the check-out validator rejects and the price summary counts as one night; the corrected handler resets it to the day after |
| BookingForm.CheckInChangeSettles | script.js:206-214 | running the handler again changes nothing; any check-out it leaves passes validation and is not before the minimum |
| BookingForm.Failures | script.js:372-378 | a field is reported as failing iff its validator rejects it |
| BookingForm.AcceptedIff | script.js:354-384 | the form is accepted iff: check-in is set; check-out is set and after check-in; a room is chosen; both names trim to at least 2 code units; the e-mail is valid; the phone trims to at least 6 code units |
| EmailPattern.ValidEmailMatchesPattern | script.js:377 | an e-mail is accepted by the scan iff it matches the regular expression. The scan checks: no whitespace, exactly one `@`, a non-empty part before it, and a `.` that is not first or last in the part after it |
| BookingForm.HeroSearch | script.js:329-346 | the search fails with "missing dates" iff a date is empty; it succeeds iff check-out is after check-in; on success it forwards the dates, guests and room type |
| BookingForm.HeroSearchAgreesWithForm | script.js:335-342 | the hero search accepts exactly the date pairs that the booking form's date validators accept |
| BookingForm.Submit | script.js:351-419 | an invalid form is rejected with its failing fields. Otherwise the booking is saved with: reference `DHV-` plus the random part; the trimmed full name; nights equal to check-out minus check-in; amount equal to the nightly charges plus the add-on; status `confirmed` |
| BookingForm.SubmittedAmountMatchesSummary | script.js:403-408 | an accepted form with a priced room is saved, its price summary is shown, and the saved amount equals the summary total |
| BookingForm.SaveBooking | script.js:417-419 | a new booking goes to the front of the saved list and the rest is kept in order |
| RoomPricing.PricingOrDefault | script.js:12-16 | fetched prices are used when present; otherwise the defaults are 180, 320 and 420 |
| RoomPricing.RoomTypeOfName | script.js:27-30 | a name resolves to single iff it contains "single"; to deluxe iff it contains "deluxe" but not "single"; to family iff it contains "family" but neither "single" nor "deluxe"; to nothing iff it contains no keyword |
| RoomPricing.SingleKeywordWins | script.js:28-30 | a name containing "single" is priced as a single room, whatever other keywords it contains |
| RoomPricing.PriceCard | script.js:22-40 | a card whose name resolves to a positive price shows that price and links with it; every other card is unchanged |
| RoomPricing.PriceOption | script.js:45-50 | a matched option's price attribute parses back to its type's price, whatever the sign; an unmatched option is unchanged |
| RoomPricing.PricedOptionReadsBack | script.js:47-51 | after pricing, the booking form reads a matched option's configured price, or the old attribute of an unmatched option |
| Dashboard.ComputeStats | admin.js:83-86 | revenue is the sum of the amounts (missing ones count 0); the booking count is the list length; the guest count is the number of distinct e-mails; the pending count is the number of rows the filter shows for status `pending`; occupancy is twice the booking count capped at 100, so within 0..100 and 0 for no bookings; guests and pending are at most the booking count |
| Dashboard.OccupancyIsDoubleCapped | admin.js:85 | `min(round(n / 50 * 100), 100)` equals `min(2n, 100)`; it is 0 for an empty list and always lies in 0..100 |
| Dashboard.StatsAgreeWithDirectory | admin.js:83-84 | the guest count is the number of directory entries; revenue is the directory's total spending; the booking count is the directory's total stays |
| Dashboard.PendingBadgeMatchesFilter | admin.js:86 | the pending count equals the number of rows the filter shows for status `pending` and an empty search |
| GuestDirectory.Directory | admin.js:157-176 | the directory has one entry per distinct e-mail. Each entry holds: the name and phone (or `N/A`) of that e-mail's first booking; its number of bookings; its summed amounts, with missing amounts counting 0; its latest check-in |
| GuestDirectory.DirectoryTotals | admin.js:157-174 | the number of entries equals the number of distinct e-mails; stays sum to the number of bookings; spending sums to the revenue |
| GuestDirectory.DirectoryEntry | admin.js:159-173 | each distinct e-mail has exactly one entry, with its count, summed amount, latest check-in, and first name and phone |
| Dashboard.ActionsFor | admin.js:143-145 | confirm is offered iff the status is `pending`; cancel iff it is not `cancelled`; delete always, last; the buttons are in that fixed order |
| Dashboard.RenderBookings | admin.js:119-150 | no bookings gives the placeholder; otherwise there is one row per booking, in order, with its reference, guest, e-mail, room, check-in and check-out, the amount or 0, the capitalised status, the booking's nights only in the full table, and the buttons its status allows |
| Dashboard.Overview | admin.js:98 | the overview lists the first min(5, n) bookings, in order |
| Dashboard.FilterBookings | admin.js:298-302 | every booking the filter returns matches the query and the status |
| Dashboard.FilterIsSubsequence | admin.js:298-302 | the filter's result is an order-preserving subsequence of its input |
| Dashboard.FilterKeepsExactlyMatches | admin.js:298-302 | a booking occurs in the result exactly as often as in the input when it matches the lower-cased query and the status (or `all`), and otherwise not at all |
| Dashboard.FilterEverything | admin.js:298-302 | an empty query with status `all` returns every booking |
| Settings.UpdateInventory | admin.js:358-370 | an unparseable or negative count is rejected; otherwise only the chosen room type takes the new count, and every other type keeps its value |
| Settings.InventoryAfter | admin.js:362-383 | a valid count whose write succeeds stores the merged inventory; an invalid count or a failed write leaves the inventory unchanged; other room types never change |
| Settings.InventoryRoundTrip | admin.js:360-370 | typing the decimal spelling of a count stores exactly that count for the chosen type |
| Settings.NegativeCountRejected | admin.js:362-365 | a negative count is refused and leaves the inventory unchanged |
| Settings.UpdateInventoryIdempotent | admin.js:370 | recording the same count twice gives the same inventory as recording it once |
| Settings.SavePricing | admin.js:398-411 | prices are saved iff all three texts parse as integers; the saved values are the parsed ones, negative values included |
| Settings.SavePricingRoundTrip | admin.js:103-106 | saving the prices the dashboard displays stores them unchanged |
| Settings.SavePricingRejectsOneBad | admin.js:403-406 | one unparseable price rejects the whole save |

## Left out

- DOM reads and writes: CSS injection, the navbar, the hamburger menu, scroll reveal, modals, the room filter tabs, `filterTable`, `switchPage`, `toggleSidebar` and `renderRoomsGrid`. They are presentation only.
- `animateCounter`: it uses floating-point easing and animation frames.
- Database queries and updates, `localStorage` JSON, and EmailJS sends. These are foreign I/O. The model takes the fetched data as input and returns what would be written.
- `confirmBooking`, `cancelBooking` and `deleteBooking`: each is a single database write (an update, or a delete for `deleteBooking`), plus a confirmation e-mail for `confirmBooking`, followed by a refresh, with no logic of its own.
- A failed dashboard refresh returns early and leaves the page as it was. There is nothing to model beyond that.
- JavaScript `Date` semantics: time zones, parsing and millisecond arithmetic. Dates are day numbers, and `formatDate` takes calendar fields. The conversion between the two is not modelled.
- `toLocaleString` currency formatting, and `parseFloat` on stored amounts. Amounts are integers, and a missing amount counts as 0.
- The random booking reference: its random part is a parameter of `BookingForm.Submit`.
- URL handling, and the session-flag login check. This includes pre-selecting the room from the query string and rewriting the booking link; a room card keeps only the link's `price` parameter.
- The configured tax rate: it is read but never used, so it does not appear in the model.
- `validateField` skips a field whose form group or input element is missing. The model assumes every field is present.
- Text.Lower: lower-cases ASCII letters only. For the room keywords this is exact. For the dashboard search, non-ASCII letters are compared without case folding.
- Numerals.ParseInt: integers are unbounded. It does not model the loss of precision of JavaScript numbers beyond 2^53, nor the exponent form (`1e+21`) that `String(n)` uses from 10^21 on.
- GuestDirectory.Directory: entries come in order of each e-mail's first booking. JavaScript lists integer-like object keys first; that ordering is not modelled. The grouping object is a plain `{}`, so an e-mail that names an inherited `Object.prototype` member (`constructor`, `toString`, `__proto__`, ...) finds a truthy value and opens no entry, while the distinct-e-mail count still counts it; the model assumes no e-mail is such a name. Amounts are numbers or missing: an amount stored as a string (even `"250"`), which `b.amount || 0` would concatenate onto the running total, is not modelled, so the directory's spending equals the revenue only for numeric or missing amounts.
- BookingForm.OnCheckInChange: models the handler at a UTC offset of zero or more. West of UTC the script sets the minimum to the check-in day itself; that behaviour is `BookingForm.OnCheckInChangeAsWritten` (see Findings).
- BookingForm.Submit: the saved record has no `createdAt` field. The script stamps it with the current time as an ISO string, and the clock is not modelled.
- Text.Capitalize: upper-cases ASCII letters only, where `toUpperCase` also maps other letters. The statuses the site writes (`pending`, `confirmed`, `cancelled`) are ASCII, for which this is exact.
- AdminBookings.Booking: `guest` and `status` are always strings. The dashboard calls `b.guest.toLowerCase()` and `b.status.charAt(0)`, which throw on a null value; rows with a null guest or status are not modelled.

## Findings

| source | as written | input that shows it | evidently intended | confidence | as-written member | corrected member |
|---|---|---|---|---|---|---|
| script.js:206-212 (also script.js:170-175) | the new check-out minimum is `new Date(checkIn)` (UTC midnight) moved one local day on and formatted with local fields | a browser west of UTC (e.g. UTC-5), check-in `2026-10-10`, check-out `2026-10-09`: the minimum and the reset check-out become `2026-10-10`, which the form then rejects | the minimum and the reset check-out are the day after check-in | medium, not executed | BookingForm.OnCheckInChangeAsWritten, BookingForm.WestOfUtcResetIsRejected | BookingForm.OnCheckInChange, BookingForm.CheckInChangeSettles |

=== FILE: admin_bookings.dfy ===
/** A booking row as the admin dashboard reads it from the `bookings`
    table, with the per-booking defaults the dashboard applies and the
    reference folds the dashboard's figures are checked against. */
module AdminBookings {
  import opened Results
  import opened Dates

  /** `ref` and `phone` may be missing; `amount` is `None` when missing. */
  datatype Booking = Booking(
    ref: Option<string>, guest: string, email: string, phone: Option<string>,
    room: string, checkIn: Day, checkOut: Day, nights: int,
    amount: Option<int>, status: string)

  /** `parseFloat(b.amount) || 0` and `b.amount || 0`. */
  function AmountOrZero(b: Booking): int {
    b.amount.GetOr(0)
  }

  /** `b.phone || 'N/A'`: a missing or empty phone shows as `N/A`. */
  function PhoneOrNA(phone: Option<string>): (r: string)
    ensures r != ""
  {
    if phone.Some? && phone.value != "" then phone.value else "N/A"
  }

  /** The distinct e-mail addresses among the bookings. */
  function EmailsOf(bs: seq<Booking>): set<string> {
    set i | 0 <= i < |bs| :: bs[i].email
  }

  /** The sum of all booking amounts, missing ones counting as 0. */
  function Revenue(bs: seq<Booking>): int {
    if |bs| == 0 then 0 else Revenue(bs[..|bs| - 1]) + AmountOrZero(bs[|bs| - 1])
  }

  /** How many bookings carry e-mail `e`. */
  function CountWithEmail(bs: seq<Booking>, e: string): nat {
    if |bs| == 0 then 0
    else CountWithEmail(bs[..|bs| - 1], e) + (if bs[|bs| - 1].email == e then 1 else 0)
  }

  /** The amounts of the bookings carrying e-mail `e`, summed. */
  function SpentWithEmail(bs: seq<Booking>, e: string): int {
    if |bs| == 0 then 0
    else SpentWithEmail(bs[..|bs| - 1], e) + (if bs[|bs| - 1].email == e then AmountOrZero(bs[|bs| - 1]) else 0)
  }

  /** The index of the first booking carrying e-mail `e`. */
  function FirstIndex(bs: seq<Booking>, e: string): (i: nat)
    requires e in EmailsOf(bs)
    ensures i < |bs| && bs[i].email == e
    ensures forall k :: 0 <= k < i ==> bs[k].email != e
  {
    if bs[0].email == e then 0
    else
      assert e in EmailsOf(bs[1..]) by {
        var j :| 0 <= j < |bs| && bs[j].email == e;
        assert bs[1..][j - 1].email == e;
      }
      1 + FirstIndex(bs[1..], e)
  }

  /** The latest check-in among the bookings carrying e-mail `e`. */
  function LatestCheckIn(bs: seq<Booking>, e: string): (d: Day)
    requires e in EmailsOf(bs)
    ensures exists i :: 0 <= i < |bs| && bs[i].email == e && bs[i].checkIn == d
    ensures forall i :: 0 <= i < |bs| && bs[i].email == e ==> bs[i].checkIn <= d
  {
    var n := |bs| - 1;
    var init := bs[..n];
    EmailsOfSnoc(init, bs[n]);
    assert bs == init + [bs[n]];
    if bs[n].email != e then
      LatestCheckIn(init, e)
    else if e in EmailsOf(init) then
      var before := LatestCheckIn(init, e);
      if bs[n].checkIn > before then bs[n].checkIn else before
    else
      bs[n].checkIn
  }

  /** Appending a booking adds its e-mail to the distinct e-mails. */
  lemma EmailsOfSnoc(bs: seq<Booking>, b: Booking)
    ensures EmailsOf(bs + [b]) == EmailsOf(bs) + {b.email}
  {
    var xs := bs + [b];
    assert xs[|bs|] == b;
    assert forall i :: 0 <= i < |bs| ==> xs[i] == bs[i];
  }

  /** An e-mail no booking carries has no bookings and no spending. */
  lemma {:induction false} AbsentEmailHasNothing(bs: seq<Booking>, e: string)
    requires e !in EmailsOf(bs)
    ensures CountWithEmail(bs, e) == 0 && SpentWithEmail(bs, e) == 0
  {
    if |bs| > 0 {
      var init := bs[..|bs| - 1];
      EmailsOfSnoc(init, bs[|bs| - 1]);
      assert bs == init + [bs[|bs| - 1]];
      AbsentEmailHasNothing(init, e);
    }
  }
}

=== FILE: booking_form.dfy ===
/** The public booking page: nights and price arithmetic, the price
    summary panel, the check-in change handler, field validation, the hero
    search check and the booking record a valid submission produces. */
module BookingForm {
  import opened Results
  import opened Text
  import opened Dates
  import opened RoomPricing
  import opened EmailPattern

  // ---------------------------------------------------------------- nights

  /** `getNights`: the whole days from check-in to check-out, or 1 when a
      date is missing or check-out is not after check-in. Both dates are
      parsed as UTC midnights, so the difference is a whole number of days. */
  function Nights(checkIn: Option<Day>, checkOut: Option<Day>): (n: nat) {
    if checkIn.None? || checkOut.None? then 1
    else if checkOut.value - checkIn.value > 0 then checkOut.value - checkIn.value
    else 1
  }

  /** The nights charged are at least one, are exactly the nights the guest
      occupies the room when check-out follows check-in, and fall back to
      one otherwise. */
  lemma NightsCountsStay(checkIn: Option<Day>, checkOut: Option<Day>)
    ensures Nights(checkIn, checkOut) >= 1
    ensures checkIn.Some? && checkOut.Some? && checkIn.value < checkOut.value ==>
      Nights(checkIn, checkOut) == |StayNights(checkIn.value, checkOut.value)|
    ensures checkIn.None? || checkOut.None? || checkOut.value <= checkIn.value ==>
      Nights(checkIn, checkOut) == 1
  {
    if checkIn.Some? && checkOut.Some? && checkIn.value < checkOut.value {
      StayNightsCount(checkIn.value, checkOut.value);
    }
  }

  // ---------------------------------------------------------------- price

  /** The amount charged: the room price for every night plus the add-on.
      The configured tax rate is read by the page but never applied. */
  function Total(roomPrice: int, nights: nat, addonCost: int): int {
    roomPrice * nights + addonCost
  }

  /** The room price charged once per night, night by night. */
  function NightlyCharges(roomPrice: int, nights: nat): int {
    if nights == 0 then 0 else NightlyCharges(roomPrice, nights - 1) + roomPrice
  }

  /** The total is the add-on plus one room charge for each night. */
  lemma {:induction false} TotalChargesEachNight(roomPrice: int, nights: nat, addonCost: int)
    ensures Total(roomPrice, nights, addonCost) == NightlyCharges(roomPrice, nights) + addonCost
  {
    if nights > 0 {
      TotalChargesEachNight(roomPrice, nights - 1, addonCost);
    }
  }

  /** An `<option>` of the add-on select: value, visible text, `data-cost`. */
  datatype AddonChoice = AddonChoice(value: string, text: string, cost: string)

  /** `parseInt(cost, 10) || 0` of the selected add-on, 0 without one. */
  function AddonCost(addon: Option<AddonChoice>): int {
    match addon
    case None => 0
    case Some(a) => PriceOrZero(a.cost)
  }

  /** The part of `t` before the first occurrence of `sep`
      (`t.split(sep)[0]`). */
  function BeforeSeparator(t: string, sep: string): (r: string)
    requires |sep| > 0
    ensures |r| <= |t| && r == t[..|r|]
    ensures |r| < |t| ==> OccursAt(t, sep, |r|)
    ensures forall k :: 0 <= k < |r| ==> !OccursAt(t, sep, k)
  {
    if |t| < |sep| then t
    else if t[..|sep|] == sep then ""
    else
      var rest := BeforeSeparator(t[1..], sep);
      OccursAtShift(t, sep);
      [t[0]] + rest
  }

  /** The add-on's name as the summary shows it: the option text before
      " —", and nothing for the `none` option or a missing select. */
  function AddonName(addon: Option<AddonChoice>): Option<string> {
    match addon
    case None => None
    case Some(a) => if a.value == "none" then None else Some(BeforeSeparator(a.text, " \U{2014}"))
  }

  datatype AddonLine = AddonLine(name: string, cost: int)

  /** The price summary panel: hidden, or the per-night line, the nights
      line, an optional add-on line and the total. */
  datatype PriceSummary =
    | Hidden
    | Shown(roomLabel: string, perNight: int, nights: nat, nightsCost: int, addon: Option<AddonLine>, total: int)

  /** `updatePriceSummary`: the panel is shown for a selected room with a
      non-zero price; the add-on line only for a named add-on with a
      non-zero cost, while the total always includes the add-on cost. */
  function Summarize(room: RoomOption, addon: Option<AddonChoice>, checkIn: Option<Day>, checkOut: Option<Day>): (r: PriceSummary)
    ensures r.Shown? <==> room.value != "" && PriceOrZero(room.price) != 0
    ensures r.Shown? ==>
      && r.roomLabel == room.value
      && r.perNight == PriceOrZero(room.price)
      && r.nights == Nights(checkIn, checkOut)
      && r.total == r.nightsCost + AddonCost(addon)
      && r.total == NightlyCharges(PriceOrZero(room.price), r.nights) + AddonCost(addon)
    ensures r.Shown? ==>
      (r.addon.Some? <==> AddonName(addon).Some? && AddonName(addon).value != "" && AddonCost(addon) != 0)
    ensures r.Shown? && r.addon.Some? ==>
      r.addon.value == AddonLine(AddonName(addon).value, AddonCost(addon))
  {
    var price := PriceOrZero(room.price);
    var nights := Nights(checkIn, checkOut);
    var cost := AddonCost(addon);
    var name := AddonName(addon);
    TotalChargesEachNight(price, nights, cost);
    if room.value != "" && price != 0 then
      Shown(room.value, price, nights, price * nights,
            if name.Some? && name.value != "" && cost != 0 then Some(AddonLine(name.value, cost)) else None,
            Total(price, nights, cost))
    else Hidden
  }

  // ---------------------------------------------------------------- dates

  /** The date inputs as a page opened on day `today` fills them. */
  datatype DateInputs = DateInputs(checkIn: Day, checkOut: Day, checkInMin: Day, checkOutMin: Day)

  /** The defaults: check-in tomorrow, check-out three days from today,
      no check-in before today and no check-out before tomorrow. They
      respect their own minimums, pass validation and make a two-night
      stay. */
  function DefaultDates(today: Day): (r: DateInputs)
    ensures r.checkIn == today + 1 && r.checkOut == today + 3
    ensures r.checkInMin == today && r.checkOutMin == today + 1
    ensures r.checkIn >= r.checkInMin && r.checkOut >= r.checkOutMin
    ensures CheckOutAccepted(Some(r.checkOut), Some(r.checkIn))
    ensures Nights(Some(r.checkIn), Some(r.checkOut)) == 2
  {
    DateInputs(today + 1, today + 3, today, today + 1)
  }

  /** The check-out input after a check-in change: its `min` (None when
      the check-in is empty, which yields an invalid date) and its value. */
  datatype CheckOutInput = CheckOutInput(min: Option<Day>, value: Option<Day>)

  /** The check-in `change` handler: the earliest check-out becomes the day
      after check-in, and a check-out not after check-in is moved to it. */
  function OnCheckInChange(checkIn: Option<Day>, checkOut: Option<Day>): (r: CheckOutInput)
    ensures checkIn.Some? ==> r.min == Some(checkIn.value + 1)
    ensures checkIn.None? ==> r == CheckOutInput(None, checkOut)
    ensures checkOut.None? ==> r.value.None?
    ensures checkIn.Some? && checkOut.Some? ==> r.value.Some? && r.value.value > checkIn.value
    ensures checkIn.Some? && checkOut.Some? && checkOut.value > checkIn.value ==> r.value == checkOut
    ensures checkIn.Some? && checkOut.Some? && checkOut.value <= checkIn.value ==> r.value == r.min
  {
    match checkIn
    case None => CheckOutInput(None, checkOut)
    case Some(ci) =>
      var newMin := ci + 1;
      if checkOut.Some? && checkOut.value <= ci then CheckOutInput(Some(newMin), Some(newMin))
      else CheckOutInput(Some(newMin), checkOut)
  }

  /** Running the handler again changes nothing, and whatever check-out it
      leaves passes the form's check-out validation and is at least the
      new minimum. */
  lemma CheckInChangeSettles(checkIn: Option<Day>, checkOut: Option<Day>)
    ensures var r := OnCheckInChange(checkIn, checkOut);
      && OnCheckInChange(checkIn, r.value) == r
      && (r.value.Some? ==> CheckOutAccepted(r.value, checkIn))
      && (r.value.Some? && r.min.Some? ==> r.value.value >= r.min.value)
  {
  }

  /** The handler as the script writes it. `new Date(value)` reads a
      date-only value as UTC midnight, but `getDate`, `setDate` and
      `formatDate` use local-time fields. West of UTC (a negative offset)
      UTC midnight falls on the previous local day, so the new minimum is
      the check-in day itself rather than the day after. The comparison of
      the two inputs reads both as UTC midnight and is unaffected. */
  function OnCheckInChangeAsWritten(checkIn: Option<Day>, checkOut: Option<Day>, westOfUtc: bool): (r: CheckOutInput)
    ensures !westOfUtc ==> r == OnCheckInChange(checkIn, checkOut)
    ensures checkIn.None? ==> r == CheckOutInput(None, checkOut)
    ensures westOfUtc && checkIn.Some? ==> r.min == Some(checkIn.value)
    ensures westOfUtc && checkIn.Some? ==>
      r.value == (if checkOut.Some? && checkOut.value <= checkIn.value then Some(checkIn.value) else checkOut)
  {
    match checkIn
    case None => CheckOutInput(None, checkOut)
    case Some(ci) =>
      var localDay := if westOfUtc then ci - 1 else ci;
      var newMin := localDay + 1;
      if checkOut.Some? && checkOut.value <= ci then CheckOutInput(Some(newMin), Some(newMin))
      else CheckOutInput(Some(newMin), checkOut)
  }

  /** West of UTC, a check-out on or before check-in is reset to the
      check-in day, which the check-out validator then rejects and which
      the price summary counts as one night. */
  lemma WestOfUtcResetIsRejected(ci: Day, co: Day)
    requires co <= ci
    ensures var r := OnCheckInChangeAsWritten(Some(ci), Some(co), true);
      && r.value == Some(ci)
      && !CheckOutAccepted(r.value, Some(ci))
      && Nights(Some(ci), r.value) == 1
      && OnCheckInChange(Some(ci), Some(co)).value == Some(ci + 1)
  {
  }

  // ---------------------------------------------------------------- validation

  datatype Field = CheckIn | CheckOut | Room | FirstName | LastName | Email | Phone

  /** The fields in the order the form validates them. */
  const FormOrder: seq<Field> := [CheckIn, CheckOut, Room, FirstName, LastName, Email, Phone]

  /** The booking form's inputs (date inputs hold a day or are empty). */
  datatype Form = Form(
    checkIn: Option<Day>, checkOut: Option<Day>,
    room: RoomOption, addon: Option<AddonChoice>,
    firstName: string, lastName: string, email: string, phone: string)

  /** Check-out is set and, when check-in is set, strictly after it. */
  predicate CheckOutAccepted(checkOut: Option<Day>, checkIn: Option<Day>) {
    checkOut.Some? && (checkIn.None? || checkOut.value > checkIn.value)
  }

  /** A name has at least two code units once trimmed. */
  predicate NameAccepted(v: string) {
    Utf16Length(Trim(v)) >= 2
  }

  /** A phone number has at least six code units once trimmed. */
  predicate PhoneAccepted(v: string) {
    Utf16Length(Trim(v)) >= 6
  }

  /** The condition `validateField` applies to each field. */
  predicate FieldAccepted(f: Form, field: Field) {
    match field
    case CheckIn => f.checkIn.Some?
    case CheckOut => CheckOutAccepted(f.checkOut, f.checkIn)
    case Room => f.room.value != ""
    case FirstName => NameAccepted(f.firstName)
    case LastName => NameAccepted(f.lastName)
    case Email => ValidEmail(f.email)
    case Phone => PhoneAccepted(f.phone)
  }

  /** The fields of `fields` that fail, keeping their order. */
  function FailingAmong(f: Form, fields: seq<Field>): (r: seq<Field>)
    ensures forall x :: x in r <==> x in fields && !FieldAccepted(f, x)
    ensures |r| <= |fields|
  {
    if |fields| == 0 then []
    else (if FieldAccepted(f, fields[0]) then [] else [fields[0]]) + FailingAmong(f, fields[1..])
  }

  /** The fields marked with an error, in form order. */
  function Failures(f: Form): (r: seq<Field>)
    ensures forall x :: x in r <==> !FieldAccepted(f, x)
  {
    EveryFieldInOrder();
    FailingAmong(f, FormOrder)
  }

  lemma EveryFieldInOrder()
    ensures forall x: Field :: x in FormOrder
  {
    forall x: Field ensures x in FormOrder {
      match x
      case CheckIn => assert FormOrder[0] == x;
      case CheckOut => assert FormOrder[1] == x;
      case Room => assert FormOrder[2] == x;
      case FirstName => assert FormOrder[3] == x;
      case LastName => assert FormOrder[4] == x;
      case Email => assert FormOrder[5] == x;
      case Phone => assert FormOrder[6] == x;
    }
  }

  /** The form is submitted only when no field is marked. */
  predicate Accepted(f: Form) {
    |Failures(f)| == 0
  }

  /** A form is accepted exactly when every field passes its check. */
  lemma AcceptedIff(f: Form)
    ensures Accepted(f) <==>
      && f.checkIn.Some?
      && CheckOutAccepted(f.checkOut, f.checkIn)
      && f.room.value != ""
      && NameAccepted(f.firstName) && NameAccepted(f.lastName)
      && ValidEmail(f.email)
      && PhoneAccepted(f.phone)
  {
    var r := Failures(f);
    if |r| > 0 {
      assert r[0] in r;
    }
    if !FieldAccepted(f, CheckIn) { assert CheckIn in r; }
    if !FieldAccepted(f, CheckOut) { assert CheckOut in r; }
    if !FieldAccepted(f, Room) { assert Room in r; }
    if !FieldAccepted(f, FirstName) { assert FirstName in r; }
    if !FieldAccepted(f, LastName) { assert LastName in r; }
    if !FieldAccepted(f, Email) { assert Email in r; }
    if !FieldAccepted(f, Phone) { assert Phone in r; }
  }

  // ---------------------------------------------------------------- hero search

  datatype SearchError = MissingDates | CheckOutNotAfterCheckIn

  /** The query the hero search forwards to the rooms page. */
  datatype Search = Search(checkIn: Day, checkOut: Day, guests: string, roomType: string)

  /** `handleHeroSearch`: both dates are required and check-out must come
      after check-in. */
  function HeroSearch(checkIn: Option<Day>, checkOut: Option<Day>, guests: string, roomType: string): (r: Result<Search, SearchError>)
    ensures r == Failure(MissingDates) <==> checkIn.None? || checkOut.None?
    ensures r.Success? <==> checkIn.Some? && checkOut.Some? && checkOut.value > checkIn.value
    ensures r.Success? ==> r.value == Search(checkIn.value, checkOut.value, guests, roomType)
  {
    if checkIn.None? || checkOut.None? then Failure(MissingDates)
    else if checkOut.value <= checkIn.value then Failure(CheckOutNotAfterCheckIn)
    else Success(Search(checkIn.value, checkOut.value, guests, roomType))
  }

  /** The hero search accepts exactly the date pairs the booking form
      accepts for its check-in and check-out fields. */
  lemma HeroSearchAgreesWithForm(checkIn: Option<Day>, checkOut: Option<Day>, guests: string, roomType: string)
    ensures HeroSearch(checkIn, checkOut, guests, roomType).Success? <==>
      checkIn.Some? && CheckOutAccepted(checkOut, checkIn)
  {
  }

  // ---------------------------------------------------------------- submit

  /** The booking record saved locally after a valid submission. */
  datatype StoredBooking = StoredBooking(
    ref: string, guest: string, email: string, phone: string, room: string,
    checkIn: Day, checkOut: Day, nights: nat, amount: int, status: string)

  /** `handleBookingSubmit`: a form with failing fields is rejected with
      them; otherwise the booking gets reference `DHV-` followed by the
      random part, the trimmed full name, the nights of the stay and the
      total, and is saved as confirmed. */
  function Submit(f: Form, randomPart: string): (r: Result<StoredBooking, seq<Field>>)
    ensures r.Failure? <==> !Accepted(f)
    ensures r.Failure? ==> r.error == Failures(f) && |r.error| > 0
    ensures r.Success? ==>
      && f.checkIn.Some? && f.checkOut.Some?
      && r.value.checkIn == f.checkIn.value && r.value.checkOut == f.checkOut.value
      && r.value.nights == f.checkOut.value - f.checkIn.value
      && r.value.amount == NightlyCharges(PriceOrZero(f.room.price), r.value.nights) + AddonCost(f.addon)
      && r.value.ref == "DHV-" + randomPart
      && r.value.guest == Trim(f.firstName + " " + f.lastName)
      && r.value.room == f.room.value && r.value.room != ""
      && r.value.email == f.email && r.value.phone == f.phone
      && r.value.status == "confirmed"
  {
    if !Accepted(f) then Failure(Failures(f))
    else
      AcceptedIff(f);
      var nights := Nights(f.checkIn, f.checkOut);
      var price := PriceOrZero(f.room.price);
      var cost := AddonCost(f.addon);
      TotalChargesEachNight(price, nights, cost);
      Success(StoredBooking(
        "DHV-" + randomPart, Trim(f.firstName + " " + f.lastName), f.email, f.phone,
        if f.room.value != "" then f.room.value else "Selected Room",
        f.checkIn.value, f.checkOut.value, nights, Total(price, nights, cost), "confirmed"))
  }

  /** The amount saved with a booking is the total its price summary
      showed for the same form. */
  lemma SubmittedAmountMatchesSummary(f: Form, randomPart: string)
    requires Accepted(f) && f.room.value != "" && PriceOrZero(f.room.price) != 0
    ensures Submit(f, randomPart).Success? && Summarize(f.room, f.addon, f.checkIn, f.checkOut).Shown?
    ensures Submit(f, randomPart).value.amount == Summarize(f.room, f.addon, f.checkIn, f.checkOut).total
  {
  }

  /** A new booking goes to the front of the saved list. */
  function SaveBooking(existing: seq<StoredBooking>, b: StoredBooking): (r: seq<StoredBooking>)
    ensures |r| == |existing| + 1 && r[0] == b && r[1..] == existing
  {
    [b] + existing
  }
}

=== FILE: dashboard.dfy ===
/** The admin dashboard: headline statistics, the bookings tables with
    their per-status action buttons, and the search/status filter. */
module Dashboard {
  import opened Results
  import opened Text
  import opened Dates
  import opened AdminBookings
  import opened GuestDirectory

  // ---------------------------------------------------------------- statistics

  /** The room count the occupancy figure is measured against. */
  const OccupancyCapacity: nat := 50

  function Min(a: int, b: int): int {
    if a <= b then a else b
  }

  /** `Math.round(num / den)` for a non-negative ratio: halves round up. */
  function RoundRatio(num: nat, den: nat): (r: nat)
    requires den > 0
    ensures 2 * r * den <= 2 * num + den < 2 * (r + 1) * den
  {
    (2 * num + den) / (2 * den)
  }

  /** The occupancy figure: the bookings as a rounded percentage of the
      capacity, capped at 100, and 0 without bookings. */
  function OccupancyPercent(n: nat): nat {
    if n > 0 then Min(RoundRatio(n * 100, OccupancyCapacity), 100) else 0
  }

  /** Occupancy is twice the number of bookings, capped at 100. */
  lemma OccupancyIsDoubleCapped(n: nat)
    ensures OccupancyPercent(n) == Min(2 * n, 100)
    ensures 0 <= OccupancyPercent(n) <= 100
    ensures n == 0 ==> OccupancyPercent(n) == 0
  {
    if n > 0 {
      calc {
        RoundRatio(n * 100, 50);
        (200 * n + 50) / 100;
        { assert 200 * n + 50 == 2 * n * 100 + 50; }
        2 * n;
      }
    }
  }

  /** How many bookings have status `status`. */
  function CountStatus(bs: seq<Booking>, status: string): (n: nat)
    ensures n <= |bs|
  {
    if |bs| == 0 then 0
    else CountStatus(bs[..|bs| - 1], status) + (if bs[|bs| - 1].status == status then 1 else 0)
  }

  /** The four stat cards and the pending badge. */
  datatype Stats = Stats(revenue: int, bookings: nat, occupancy: nat, guests: nat, pending: nat)

  /** The statistics block of `refreshDashboard`. */
  function ComputeStats(bs: seq<Booking>): (s: Stats)
    ensures s.bookings == |bs|
    ensures s.occupancy == Min(2 * |bs|, 100)
    ensures 0 <= s.occupancy <= 100 && (|bs| == 0 ==> s.occupancy == 0)
    ensures s.revenue == Revenue(bs)
    ensures s.guests == |EmailsOf(bs)| && s.guests <= s.bookings
    ensures s.pending == |FilterBookings(bs, "", "pending")| && s.pending <= s.bookings
  {
    OccupancyIsDoubleCapped(|bs|);
    EmailsOfBound(bs);
    PendingMatchesFilter(bs);
    Stats(Revenue(bs), |bs|, OccupancyPercent(|bs|), |EmailsOf(bs)|, CountStatus(bs, "pending"))
  }

  /** There are no more distinct e-mails than bookings. */
  lemma {:induction false} EmailsOfBound(bs: seq<Booking>)
    ensures |EmailsOf(bs)| <= |bs|
  {
    if |bs| == 0 {
      assert EmailsOf(bs) == {};
    } else {
      var init := bs[..|bs| - 1];
      assert bs == init + [bs[|bs| - 1]];
      EmailsOfSnoc(init, bs[|bs| - 1]);
      EmailsOfBound(init);
    }
  }

  /** The guest count is the size of the guest directory, the revenue its
      total spending, and its stays add up to the booking count. */
  lemma StatsAgreeWithDirectory(bs: seq<Booking>)
    ensures ComputeStats(bs).guests == |Directory(bs)|
    ensures ComputeStats(bs).revenue == TotalSpent(Directory(bs))
    ensures ComputeStats(bs).bookings == TotalStays(Directory(bs))
  {
    DirectoryTotals(bs);
  }

  // ---------------------------------------------------------------- tables

  datatype Action = Confirm | Cancel | Delete

  /** The buttons of a booking row: confirm for a pending booking, cancel
      for any booking not yet cancelled, delete always, in that order. */
  function ActionsFor(status: string): (r: seq<Action>)
    ensures Confirm in r <==> status == "pending"
    ensures Cancel in r <==> status != "cancelled"
    ensures Delete in r && r[|r| - 1] == Delete
    ensures forall i, j :: 0 <= i < j < |r| ==> ActionRank(r[i]) < ActionRank(r[j])
  {
    (if status == "pending" then [Confirm] else [])
    + (if status != "cancelled" then [Cancel] else [])
    + [Delete]
  }

  function ActionRank(a: Action): nat {
    match a
    case Confirm => 0
    case Cancel => 1
    case Delete => 2
  }

  /** A rendered bookings-table row; `nights` only in the all-bookings
      table. */
  datatype Row = Row(
    ref: Option<string>, guest: string, email: string, room: string,
    checkIn: Day, checkOut: Day, nights: Option<int>, amount: int,
    statusLabel: string, actions: seq<Action>)

  datatype Table = NoBookings | Rows(rows: seq<Row>)

  /** `renderBookingsTable`: a placeholder for no bookings, else one row per
      booking in order, with the capitalised status, the amount or 0, and
      the buttons its status allows. */
  function RenderBookings(data: seq<Booking>, showNights: bool): (t: Table)
    ensures t.NoBookings? <==> |data| == 0
    ensures t.Rows? ==> |t.rows| == |data|
    ensures t.Rows? ==> forall i :: 0 <= i < |data| ==>
      && t.rows[i].ref == data[i].ref && t.rows[i].guest == data[i].guest
      && t.rows[i].email == data[i].email && t.rows[i].room == data[i].room
      && t.rows[i].checkIn == data[i].checkIn && t.rows[i].checkOut == data[i].checkOut
      && (showNights ==> t.rows[i].nights == Some(data[i].nights))
      && t.rows[i].amount == AmountOrZero(data[i])
      && t.rows[i].statusLabel == Capitalize(data[i].status)
      && (t.rows[i].nights.Some? <==> showNights)
      && t.rows[i].actions == ActionsFor(data[i].status)
  {
    if |data| == 0 then NoBookings
    else Rows(seq(|data|, i requires 0 <= i < |data| => BookingRow(data[i], showNights)))
  }

  function BookingRow(b: Booking, showNights: bool): Row {
    Row(b.ref, b.guest, b.email, b.room, b.checkIn, b.checkOut,
        if showNights then Some(b.nights) else None,
        AmountOrZero(b), Capitalize(b.status), ActionsFor(b.status))
  }

  /** The overview table's bookings: the first five of the list. */
  function Overview(bs: seq<Booking>): (r: seq<Booking>)
    ensures |r| == Min(5, |bs|)
    ensures r == bs[..|r|]
  {
    bs[..Min(5, |bs|)]
  }

  // ---------------------------------------------------------------- filter

  /** The lower-cased guest name, or a non-empty lower-cased reference,
      contains the lower-cased query. */
  predicate MatchesQuery(b: Booking, query: string) {
    var q := Lower(query);
    || Contains(Lower(b.guest), q)
    || (b.ref.Some? && b.ref.value != "" && Contains(Lower(b.ref.value), q))
  }

  /** The status select is `all` or names the booking's status. */
  predicate MatchesStatus(b: Booking, status: string) {
    status == "all" || b.status == status
  }

  predicate Kept(b: Booking, query: string, status: string) {
    MatchesQuery(b, query) && MatchesStatus(b, status)
  }

  /** The filter of `applyFilters`. */
  function FilterBookings(bs: seq<Booking>, query: string, status: string): (r: seq<Booking>)
    ensures |r| <= |bs|
    ensures forall k :: 0 <= k < |r| ==> Kept(r[k], query, status)
  {
    if |bs| == 0 then []
    else
      var last := bs[|bs| - 1];
      FilterBookings(bs[..|bs| - 1], query, status) + (if Kept(last, query, status) then [last] else [])
  }

  /** `idx` places each element of `a` at a strictly later position of `b`. */
  ghost predicate Embedding<T>(idx: seq<int>, a: seq<T>, b: seq<T>) {
    && |idx| == |a|
    && (forall k :: 0 <= k < |idx| ==> 0 <= idx[k] < |b| && a[k] == b[idx[k]])
    && (forall k, l :: 0 <= k < l < |idx| ==> idx[k] < idx[l])
  }

  /** `a` is `b` with some elements removed and the rest in order. */
  ghost predicate IsSubsequence<T>(a: seq<T>, b: seq<T>) {
    exists idx :: Embedding(idx, a, b)
  }

  /** The positions the filter keeps, witnessing that its result is an
      order-preserving subsequence of its input. */
  lemma {:induction false} FilterEmbedding(bs: seq<Booking>, query: string, status: string) returns (idx: seq<int>)
    ensures Embedding(idx, FilterBookings(bs, query, status), bs)
  {
    if |bs| == 0 {
      idx := [];
    } else {
      var init := bs[..|bs| - 1];
      var last := bs[|bs| - 1];
      var prev := FilterBookings(init, query, status);
      var idx0 := FilterEmbedding(init, query, status);
      if Kept(last, query, status) {
        idx := idx0 + [|bs| - 1];
      } else {
        idx := idx0;
      }
    }
  }

  /** The filtered bookings keep their relative order. */
  lemma FilterIsSubsequence(bs: seq<Booking>, query: string, status: string)
    ensures IsSubsequence(FilterBookings(bs, query, status), bs)
  {
    var idx := FilterEmbedding(bs, query, status);
  }

  /** The filter keeps exactly the matching bookings, each as often as it
      occurs in the input. */
  lemma {:induction false} FilterKeepsExactlyMatches(bs: seq<Booking>, query: string, status: string)
    ensures forall b ::
      multiset(FilterBookings(bs, query, status))[b] == (if Kept(b, query, status) then multiset(bs)[b] else 0)
  {
    if |bs| > 0 {
      var init := bs[..|bs| - 1];
      var last := bs[|bs| - 1];
      assert bs == init + [last];
      FilterKeepsExactlyMatches(init, query, status);
    }
  }

  /** With an empty query and status `all` every booking is listed. */
  lemma {:induction false} FilterEverything(bs: seq<Booking>)
    ensures FilterBookings(bs, "", "all") == bs
  {
    if |bs| > 0 {
      var init := bs[..|bs| - 1];
      var last := bs[|bs| - 1];
      FilterEverything(init);
      ContainsEmpty(Lower(last.guest));
      assert bs == init + [last];
    }
  }

  /** The pending badge counts the rows the filter shows for status
      `pending` and an empty search. */
  lemma {:induction false} PendingBadgeMatchesFilter(bs: seq<Booking>)
    ensures ComputeStats(bs).pending == |FilterBookings(bs, "", "pending")|
  {
    PendingMatchesFilter(bs);
  }

  lemma {:induction false} PendingMatchesFilter(bs: seq<Booking>)
    ensures CountStatus(bs, "pending") == |FilterBookings(bs, "", "pending")|
  {
    if |bs| > 0 {
      PendingMatchesFilter(bs[..|bs| - 1]);
      ContainsEmpty(Lower(bs[|bs| - 1].guest));
    }
  }
}

=== FILE: dates.dfy ===
/** Calendar dates. Everywhere but `formatDate`, a date is an integer day
    number (`Day`); `formatDate` works on the calendar fields a JavaScript
    `Date` reports: full year, 0-based month and day of month. */
module Dates {
  import opened Results
  import opened Text
  import opened Numerals

  /** A date as a count of days from a fixed epoch. */
  type Day = int

  /** `getFullYear()`, `getMonth()` (0-based) and `getDate()`. */
  datatype CivilDate = CivilDate(year: int, month0: int, day: int)

  /** The ranges the `Date` getters return. */
  predicate ValidCivil(d: CivilDate) {
    0 <= d.month0 < 12 && 1 <= d.day <= 31
  }

  /** `formatDate`: `yyyy-mm-dd`, the year as `String` spells it and the
      1-based month and the day zero-padded to two digits. */
  function FormatDate(d: CivilDate): (r: string)
    requires ValidCivil(d)
    ensures |r| >= 7 && r[|r| - 6] == '-' && r[|r| - 3] == '-'
    ensures r[..|r| - 6] == IntToDecimal(d.year)
    ensures AllDigits(r[|r| - 5..|r| - 3]) && DecimalValue(r[|r| - 5..|r| - 3]) == d.month0 + 1
    ensures AllDigits(r[|r| - 2..]) && DecimalValue(r[|r| - 2..]) == d.day
  {
    var y := IntToDecimal(d.year);
    var mm := TwoDigits(d.month0 + 1);
    var dd := TwoDigits(d.day);
    DateLayout(y, mm, dd);
    y + "-" + mm + "-" + dd
  }

  /** Where the fields sit in `y-mm-dd`. */
  lemma DateLayout(y: string, mm: string, dd: string)
    requires |mm| == 2 && |dd| == 2
    ensures var r := y + "-" + mm + "-" + dd;
      && |r| == |y| + 6 && r[|r| - 6] == '-' && r[|r| - 3] == '-'
      && r[..|r| - 6] == y && r[|r| - 5..|r| - 3] == mm && r[|r| - 2..] == dd
  {
    var tail := "-" + mm + "-" + dd;
    assert tail[1..3] == mm && tail[4..] == dd;
    var r := y + tail;
    assert y + "-" + mm + "-" + dd == r;
    assert r[..|y|] == y && r[|y|..] == tail;
    assert r[|r| - 5..|r| - 3] == tail[1..3];
    assert r[|r| - 2..] == tail[4..];
  }

  /** `String(n).padStart(2, '0')` for a number below 100. */
  function TwoDigits(n: nat): (r: string)
    requires n < 100
    ensures |r| == 2 && AllDigits(r) && DecimalValue(r) == n
  {
    var s := NatToDecimal(n);
    DecimalRoundTrip(n);
    NatToDecimalWidth(n);
    var r := PadStart2(s);
    assert |s| == 1 ==> r[..1] == "0" && r[1..] == s && r[..|r| - 1] == "0";
    r
  }

  /** Spellings of numbers below 100 have at most two digits. */
  lemma NatToDecimalWidth(n: nat)
    requires n < 100
    ensures |NatToDecimal(n)| <= 2
  {
    if n >= 10 {
      assert NatToDecimal(n / 10) == [DigitChar(n / 10)];
    }
  }

  /** Reads `yyyy-mm-dd` back: a possibly negative year of any width, then
      two-digit month and day fields. */
  function ParseIsoDate(s: string): Option<CivilDate> {
    var n := |s|;
    if n < 7 || s[n - 6] != '-' || s[n - 3] != '-' then None
    else
      var y := s[..n - 6];
      var mm := s[n - 5..n - 3];
      var dd := s[n - 2..];
      match ParseYear(y)
      case None => None
      case Some(year) =>
        if !AllDigits(mm) || !AllDigits(dd) then None
        else
          var d := CivilDate(year, DecimalValue(mm) - 1, DecimalValue(dd));
          if ValidCivil(d) then Some(d) else None
  }

  function ParseYear(y: string): Option<int> {
    if |y| > 0 && y[0] == '-' then
      if |y| > 1 && AllDigits(y[1..]) then Some(-(DecimalValue(y[1..]) as int)) else None
    else if |y| > 0 && AllDigits(y) then Some(DecimalValue(y))
    else None
  }

  /** Parsing what `formatDate` wrote recovers the date. */
  lemma FormatDateRoundTrip(d: CivilDate)
    requires ValidCivil(d)
    ensures ParseIsoDate(FormatDate(d)) == Some(d)
  {
    var y := IntToDecimal(d.year);
    var mm := TwoDigits(d.month0 + 1);
    var dd := TwoDigits(d.day);
    var r := y + "-" + mm + "-" + dd;
    assert FormatDate(d) == r;
    DateLayout(y, mm, dd);
    ParseYearRoundTrip(d.year);
    ParseIsoDateFields(r, y, mm, dd);
  }

  /** `ParseIsoDate` reads the three fields it finds between the dashes. */
  lemma ParseIsoDateFields(r: string, y: string, mm: string, dd: string)
    requires |r| == |y| + 6 && r[|r| - 6] == '-' && r[|r| - 3] == '-'
    requires r[..|r| - 6] == y && r[|r| - 5..|r| - 3] == mm && r[|r| - 2..] == dd
    requires ParseYear(y).Some? && AllDigits(mm) && AllDigits(dd)
    requires ValidCivil(CivilDate(ParseYear(y).value, DecimalValue(mm) - 1, DecimalValue(dd)))
    ensures ParseIsoDate(r) == Some(CivilDate(ParseYear(y).value, DecimalValue(mm) - 1, DecimalValue(dd)))
  {
  }

  /** Reading back the spelling of a year gives the year. */
  lemma ParseYearRoundTrip(year: int)
    ensures ParseYear(IntToDecimal(year)) == Some(year)
  {
    var y := IntToDecimal(year);
    var m: nat := if year < 0 then -year else year;
    DecimalRoundTrip(m);
    if year < 0 {
      assert y[1..] == NatToDecimal(m);
    }
  }

  /** The nights of a stay: the days the guest occupies, from check-in up
      to but excluding check-out. The explicit range bounds the set;
      `Occupies` gives the quantifier its trigger. */
  ghost function StayNights(checkIn: Day, checkOut: Day): set<Day> {
    set d: Day | checkIn <= d < checkOut && Occupies(checkIn, checkOut, d)
  }

  /** A guest staying from `checkIn` to `checkOut` occupies the room on the
      night of day `d`. */
  predicate Occupies(checkIn: Day, checkOut: Day, d: Day) {
    checkIn <= d < checkOut
  }

  /** A stay from `checkIn` to a later `checkOut` has `checkOut - checkIn`
      nights. */
  lemma {:induction false} StayNightsCount(checkIn: Day, checkOut: Day)
    requires checkIn <= checkOut
    ensures |StayNights(checkIn, checkOut)| == checkOut - checkIn
    decreases checkOut - checkIn
  {
    if checkIn < checkOut {
      StayNightsCount(checkIn, checkOut - 1);
      assert StayNights(checkIn, checkOut) == StayNights(checkIn, checkOut - 1) + {checkOut - 1};
    } else {
      assert StayNights(checkIn, checkOut) == {};
    }
  }
}

=== FILE: email.dfy ===
/** The booking form's e-mail check, the regular expression
    `^[^\s@]+@[^\s@]+\.[^\s@]+$`, and a direct scan that decides it. */
module EmailPattern {
  import opened Text

  /** A character of the class `[^\s@]`. */
  predicate EmailChar(c: char) {
    !IsSpace(c) && c != '@'
  }

  predicate AllEmailChars(s: string) {
    forall k :: 0 <= k < |s| ==> EmailChar(s[k])
  }

  /** One way the regular expression can match `s`: `s[..at]`,
      `s[at + 1..dot]` and `s[dot + 1..]` are non-empty runs of `[^\s@]`,
      with `@` at `at` and `.` at `dot`. */
  ghost predicate SplitsAt(s: string, at: int, dot: int) {
    && 0 < at && at + 1 < dot && dot + 1 < |s|
    && s[at] == '@' && s[dot] == '.'
    && AllEmailChars(s[..at]) && AllEmailChars(s[at + 1..dot]) && AllEmailChars(s[dot + 1..])
  }

  /** `^[^\s@]+@[^\s@]+\.[^\s@]+$` matches `s` (the regular expression
      backtracks over every choice of `.`). */
  ghost predicate MatchesEmailPattern(s: string) {
    exists at, dot :: SplitsAt(s, at, dot)
  }

  /** How many `@` characters `s` holds. */
  function AtCount(s: string): nat {
    if |s| == 0 then 0 else (if s[0] == '@' then 1 else 0) + AtCount(s[1..])
  }

  /** The index of the first `@` of `s`, or `|s|` when there is none. */
  function FirstAt(s: string): (i: nat)
    ensures i <= |s|
    ensures i < |s| ==> s[i] == '@'
    ensures forall k :: 0 <= k < i ==> s[k] != '@'
  {
    if |s| == 0 then 0 else if s[0] == '@' then 0 else 1 + FirstAt(s[1..])
  }

  /** The domain part holds a `.` that is neither its first nor its last
      character. */
  predicate HasInnerDot(d: string) {
    exists k :: 0 < k < |d| - 1 && d[k] == '.'
  }

  /** The scan the form's check amounts to: no whitespace, exactly one `@`,
      something before it, and an inner `.` after it. */
  predicate ValidEmail(s: string) {
    && NoSpace(s)
    && AtCount(s) == 1
    && var at := FirstAt(s);
       0 < at < |s| && HasInnerDot(s[at + 1..])
  }

  lemma {:induction false} AtCountZero(s: string)
    ensures AtCount(s) == 0 <==> forall k :: 0 <= k < |s| ==> s[k] != '@'
  {
    if |s| > 0 {
      AtCountZero(s[1..]);
      assert forall k :: 1 <= k < |s| ==> s[k] == s[1..][k - 1];
    }
  }

  /** Exactly one `@` means: there is a first one and none after it. */
  lemma {:induction false} AtCountOne(s: string)
    ensures AtCount(s) == 1 <==>
      (FirstAt(s) < |s| && forall k :: FirstAt(s) < k < |s| ==> s[k] != '@')
  {
    if |s| > 0 {
      assert forall k :: 1 <= k < |s| ==> s[k] == s[1..][k - 1];
      if s[0] == '@' {
        AtCountZero(s[1..]);
      } else {
        AtCountOne(s[1..]);
      }
    }
  }

  /** The scan accepts exactly the strings the regular expression matches. */
  lemma ValidEmailMatchesPattern(s: string)
    ensures ValidEmail(s) <==> MatchesEmailPattern(s)
  {
    if ValidEmail(s) {
      ScanImpliesPattern(s);
    }
    if MatchesEmailPattern(s) {
      var at, dot :| SplitsAt(s, at, dot);
      PatternImpliesScan(s, at, dot);
    }
  }

  lemma ScanImpliesPattern(s: string)
    requires ValidEmail(s)
    ensures MatchesEmailPattern(s)
  {
    AtCountOne(s);
    var at := FirstAt(s);
    var d := s[at + 1..];
    var k :| 0 < k < |d| - 1 && d[k] == '.';
    var dot := at + 1 + k;
    assert s[dot] == '.';
    assert SplitsAt(s, at, dot);
  }

  lemma PatternImpliesScan(s: string, at: int, dot: int)
    requires SplitsAt(s, at, dot)
    ensures ValidEmail(s)
  {
    AtCountOne(s);
    assert forall k :: 0 <= k < at ==> s[..at][k] == s[k];
    assert forall k :: at < k < dot ==> s[at + 1..dot][k - at - 1] == s[k];
    assert forall k :: dot < k < |s| ==> s[dot + 1..][k - dot - 1] == s[k];
    assert FirstAt(s) == at;
    assert NoSpace(s);
    assert s[at + 1..][dot - at - 1] == '.';
  }
}

=== FILE: guests.dfy ===
/** The guest directory: bookings grouped by guest e-mail, in order of
    first appearance, with stays, spending and latest check-in per guest. */
module GuestDirectory {
  import opened Dates
  import opened AdminBookings

  /** One directory row. */
  datatype Guest = Guest(name: string, email: string, phone: string, stays: nat, spent: int, lastVisit: Day)

  /** The position of the entry for e-mail `e`, or -1 when there is none. */
  function FindGuest(dir: seq<Guest>, e: string): (i: int)
    ensures -1 <= i < |dir|
    ensures i >= 0 ==> dir[i].email == e
    ensures i < 0 ==> forall k :: 0 <= k < |dir| ==> dir[k].email != e
  {
    if |dir| == 0 then -1
    else if dir[|dir| - 1].email == e then |dir| - 1
    else FindGuest(dir[..|dir| - 1], e)
  }

  /** The entry a booking with an unseen e-mail opens. */
  function Opened(b: Booking): Guest {
    Guest(b.guest, b.email, PhoneOrNA(b.phone), 1, AmountOrZero(b), b.checkIn)
  }

  /** Entry `g` after one more booking: a stay more, the amount added, and
      the last visit moved to a later check-in. */
  function Visit(g: Guest, b: Booking): Guest {
    g.(stays := g.stays + 1,
       spent := g.spent + AmountOrZero(b),
       lastVisit := if b.checkIn > g.lastVisit then b.checkIn else g.lastVisit)
  }

  /** One step of the grouping loop: a new e-mail opens an entry with the
      booking's name and phone; a known one is visited again. */
  function Record(dir: seq<Guest>, b: Booking): seq<Guest> {
    var i := FindGuest(dir, b.email);
    if i < 0 then dir + [Opened(b)] else dir[i := Visit(dir[i], b)]
  }

  /** Every entry has its own e-mail. */
  ghost predicate DistinctEmails(dir: seq<Guest>) {
    forall i, j :: 0 <= i < j < |dir| ==> dir[i].email != dir[j].email
  }

  /** Entry `g` summarises the bookings of its e-mail: the name and phone of
      the first one, their number, their amounts summed, the latest
      check-in. */
  ghost predicate Summarises(g: Guest, bs: seq<Booking>)
    requires g.email in EmailsOf(bs)
  {
    var first := bs[FirstIndex(bs, g.email)];
    && g.name == first.guest
    && g.phone == PhoneOrNA(first.phone)
    && g.stays == CountWithEmail(bs, g.email)
    && g.spent == SpentWithEmail(bs, g.email)
    && g.lastVisit == LatestCheckIn(bs, g.email)
  }

  /** `dir` is the directory of `bs`: one entry per distinct e-mail, each
      summarising that e-mail's bookings. */
  ghost predicate Describes(dir: seq<Guest>, bs: seq<Booking>) {
    && DistinctEmails(dir)
    && (forall i :: 0 <= i < |dir| ==> dir[i].email in EmailsOf(bs) && Summarises(dir[i], bs))
    && (forall e :: e in EmailsOf(bs) ==> FindGuest(dir, e) >= 0)
  }

  /** The grouping of `renderGuestsTable`, booking by booking. */
  function Directory(bs: seq<Booking>): (dir: seq<Guest>)
    ensures Describes(dir, bs)
  {
    if |bs| == 0 then []
    else
      var init := bs[..|bs| - 1];
      var b := bs[|bs| - 1];
      assert bs == init + [b];
      RecordKeepsDescription(Directory(init), init, b);
      Record(Directory(init), b)
  }

  /** The reference folds after one more booking. */
  lemma SnocFolds(bs: seq<Booking>, b: Booking, e: string)
    ensures CountWithEmail(bs + [b], e) == CountWithEmail(bs, e) + (if b.email == e then 1 else 0)
    ensures SpentWithEmail(bs + [b], e) == SpentWithEmail(bs, e) + (if b.email == e then AmountOrZero(b) else 0)
  {
    assert (bs + [b])[..|bs|] == bs;
  }

  /** The first booking of an e-mail is unaffected by appending, unless the
      appended booking is that e-mail's first. */
  lemma SnocFirst(bs: seq<Booking>, b: Booking, e: string)
    requires e in EmailsOf(bs + [b])
    ensures e in EmailsOf(bs) ==> FirstIndex(bs + [b], e) == FirstIndex(bs, e)
    ensures e !in EmailsOf(bs) ==> FirstIndex(bs + [b], e) == |bs|
  {
    var xs := bs + [b];
    assert forall j :: 0 <= j < |bs| ==> xs[j] == bs[j];
    assert forall j :: 0 <= j < |bs| ==> bs[j].email in EmailsOf(bs);
  }

  /** The latest check-in after appending. */
  lemma SnocLatest(bs: seq<Booking>, b: Booking, e: string)
    requires e in EmailsOf(bs + [b])
    ensures e in EmailsOf(bs) && e != b.email ==> LatestCheckIn(bs + [b], e) == LatestCheckIn(bs, e)
    ensures e in EmailsOf(bs) && e == b.email ==>
      LatestCheckIn(bs + [b], e) == (if b.checkIn > LatestCheckIn(bs, e) then b.checkIn else LatestCheckIn(bs, e))
    ensures e !in EmailsOf(bs) ==> LatestCheckIn(bs + [b], e) == b.checkIn
  {
    assert (bs + [b])[..|bs|] == bs;
  }

  /** An entry for another e-mail still summarises its bookings. */
  lemma OtherEntryKept(g: Guest, bs: seq<Booking>, b: Booking)
    requires g.email in EmailsOf(bs) && Summarises(g, bs) && g.email != b.email
    ensures g.email in EmailsOf(bs + [b]) && Summarises(g, bs + [b])
  {
    EmailsOfSnoc(bs, b);
    SnocFolds(bs, b, g.email);
    SnocFirst(bs, b, g.email);
    SnocLatest(bs, b, g.email);
  }

  /** The entry opened for a new e-mail summarises its single booking. */
  lemma NewEntrySummarises(bs: seq<Booking>, b: Booking)
    requires b.email !in EmailsOf(bs)
    ensures Opened(b).email in EmailsOf(bs + [b]) && Summarises(Opened(b), bs + [b])
  {
    EmailsOfSnoc(bs, b);
    AbsentEmailHasNothing(bs, b.email);
    SnocFolds(bs, b, b.email);
    SnocFirst(bs, b, b.email);
    SnocLatest(bs, b, b.email);
    assert (bs + [b])[|bs|] == b;
  }

  /** The updated entry of a known e-mail summarises its bookings. */
  lemma UpdatedEntrySummarises(g: Guest, bs: seq<Booking>, b: Booking)
    requires g.email == b.email && g.email in EmailsOf(bs) && Summarises(g, bs)
    ensures Visit(g, b).email in EmailsOf(bs + [b]) && Summarises(Visit(g, b), bs + [b])
  {
    EmailsOfSnoc(bs, b);
    SnocFolds(bs, b, b.email);
    SnocFirst(bs, b, b.email);
    SnocLatest(bs, b, b.email);
  }

  /** Recording a booking turns the directory of `bs` into the directory of
      `bs + [b]`. */
  lemma RecordKeepsDescription(dir: seq<Guest>, bs: seq<Booking>, b: Booking)
    requires Describes(dir, bs)
    ensures Describes(Record(dir, b), bs + [b])
  {
    var i := FindGuest(dir, b.email);
    if i < 0 {
      NewGuestStep(dir, bs, b);
    } else {
      KnownGuestStep(dir, bs, b, i);
    }
  }

  /** A booking with an unseen e-mail: the opened entry is appended. */
  lemma NewGuestStep(dir: seq<Guest>, bs: seq<Booking>, b: Booking)
    requires Describes(dir, bs) && FindGuest(dir, b.email) < 0
    ensures Describes(dir + [Opened(b)], bs + [b])
  {
    assert b.email !in EmailsOf(bs);
    NewEntrySummarises(bs, b);
    ExtendedDescription(dir, bs, b, dir + [Opened(b)], |dir|);
  }

  /** A booking with a known e-mail: that e-mail's entry is visited. */
  lemma KnownGuestStep(dir: seq<Guest>, bs: seq<Booking>, b: Booking, i: nat)
    requires Describes(dir, bs) && i < |dir| && dir[i].email == b.email
    ensures Describes(dir[i := Visit(dir[i], b)], bs + [b])
  {
    assert dir[i].email in EmailsOf(bs) && Summarises(dir[i], bs);
    UpdatedEntrySummarises(dir[i], bs, b);
    ExtendedDescription(dir, bs, b, dir[i := Visit(dir[i], b)], i);
  }

  /** The common step of both cases: `r` agrees with `dir` except at index
      `i`, which holds an entry for the new booking's e-mail. */
  lemma ExtendedDescription(dir: seq<Guest>, bs: seq<Booking>, b: Booking, r: seq<Guest>, i: nat)
    requires Describes(dir, bs)
    requires i <= |dir| && |r| == (if i == |dir| then |dir| + 1 else |dir|)
    requires i < |dir| ==> dir[i].email == b.email
    requires i == |dir| ==> b.email !in EmailsOf(bs)
    requires forall k :: 0 <= k < |dir| && k != i ==> r[k] == dir[k]
    requires r[i].email == b.email && r[i].email in EmailsOf(bs + [b]) && Summarises(r[i], bs + [b])
    ensures Describes(r, bs + [b])
  {
    EntriesKept(dir, bs, b, r, i);
    CoverageKept(dir, bs, b, r, i);
  }

  lemma EntriesKept(dir: seq<Guest>, bs: seq<Booking>, b: Booking, r: seq<Guest>, i: nat)
    requires Describes(dir, bs)
    requires i <= |dir| && |r| == (if i == |dir| then |dir| + 1 else |dir|)
    requires i < |dir| ==> dir[i].email == b.email
    requires i == |dir| ==> b.email !in EmailsOf(bs)
    requires forall k :: 0 <= k < |dir| && k != i ==> r[k] == dir[k]
    requires r[i].email == b.email && r[i].email in EmailsOf(bs + [b]) && Summarises(r[i], bs + [b])
    ensures DistinctEmails(r)
    ensures forall k :: 0 <= k < |r| ==> r[k].email in EmailsOf(bs + [b]) && Summarises(r[k], bs + [b])
  {
    forall k | 0 <= k < |r| && k != i
      ensures r[k].email in EmailsOf(bs + [b]) && Summarises(r[k], bs + [b])
    {
      assert dir[k].email != b.email;
      OtherEntryKept(dir[k], bs, b);
    }
  }

  lemma CoverageKept(dir: seq<Guest>, bs: seq<Booking>, b: Booking, r: seq<Guest>, i: nat)
    requires Describes(dir, bs)
    requires i <= |dir| && |r| == (if i == |dir| then |dir| + 1 else |dir|)
    requires forall k :: 0 <= k < |dir| && k != i ==> r[k] == dir[k]
    requires i < |dir| ==> dir[i].email == b.email
    requires r[i].email == b.email
    ensures forall e :: e in EmailsOf(bs + [b]) ==> FindGuest(r, e) >= 0
  {
    EmailsOfSnoc(bs, b);
    forall e | e in EmailsOf(bs + [b]) ensures FindGuest(r, e) >= 0 {
      var j := if e == b.email then i else FindGuest(dir, e);
      assert r[j].email == e;
    }
  }

  /** The stays of all entries, summed. */
  function TotalStays(dir: seq<Guest>): nat {
    if |dir| == 0 then 0 else TotalStays(dir[..|dir| - 1]) + dir[|dir| - 1].stays
  }

  /** The spending of all entries, summed. */
  function TotalSpent(dir: seq<Guest>): int {
    if |dir| == 0 then 0 else TotalSpent(dir[..|dir| - 1]) + dir[|dir| - 1].spent
  }

  /** Replacing one entry changes the sums by the difference. */
  lemma {:induction false} TotalsUpdate(dir: seq<Guest>, i: nat, g: Guest)
    requires i < |dir|
    ensures TotalStays(dir[i := g]) == TotalStays(dir) - dir[i].stays + g.stays
    ensures TotalSpent(dir[i := g]) == TotalSpent(dir) - dir[i].spent + g.spent
  {
    var n := |dir| - 1;
    if i < n {
      assert dir[i := g][..n] == dir[..n][i := g];
      TotalsUpdate(dir[..n], i, g);
    } else {
      assert dir[i := g][..n] == dir[..n];
    }
  }

  /** Recording one booking adds one stay, its amount, and an entry
      exactly when its e-mail is new. */
  lemma RecordTotals(dir: seq<Guest>, b: Booking)
    ensures TotalStays(Record(dir, b)) == TotalStays(dir) + 1
    ensures TotalSpent(Record(dir, b)) == TotalSpent(dir) + AmountOrZero(b)
    ensures |Record(dir, b)| == |dir| + (if FindGuest(dir, b.email) < 0 then 1 else 0)
  {
    var i := FindGuest(dir, b.email);
    if i < 0 {
      var r := Record(dir, b);
      assert r[..|dir|] == dir;
    } else {
      TotalsUpdate(dir, i, Visit(dir[i], b));
    }
  }

  /** The directory has one entry per distinct e-mail, its stays add up to
      the number of bookings and its spending to the total revenue. */
  lemma DirectoryTotals(bs: seq<Booking>)
    ensures |Directory(bs)| == |EmailsOf(bs)|
    ensures TotalStays(Directory(bs)) == |bs|
    ensures TotalSpent(Directory(bs)) == Revenue(bs)
  {
    DirectorySize(bs);
    DirectorySums(bs);
  }

  lemma {:induction false} DirectorySums(bs: seq<Booking>)
    ensures TotalStays(Directory(bs)) == |bs|
    ensures TotalSpent(Directory(bs)) == Revenue(bs)
  {
    if |bs| > 0 {
      var init := bs[..|bs| - 1];
      DirectorySums(init);
      RecordTotals(Directory(init), bs[|bs| - 1]);
    }
  }

  lemma {:induction false} DirectorySize(bs: seq<Booking>)
    ensures |Directory(bs)| == |EmailsOf(bs)|
  {
    if |bs| == 0 {
      assert EmailsOf(bs) == {};
    } else {
      var init := bs[..|bs| - 1];
      var b := bs[|bs| - 1];
      assert bs == init + [b];
      DirectorySize(init);
      EmailsOfSnoc(init, b);
      RecordTotals(Directory(init), b);
      NewGuestIffNewEmail(Directory(init), init, b);
    }
  }

  /** Recording opens an entry exactly for an e-mail not seen before. */
  lemma NewGuestIffNewEmail(dir: seq<Guest>, bs: seq<Booking>, b: Booking)
    requires Describes(dir, bs)
    ensures FindGuest(dir, b.email) < 0 <==> b.email !in EmailsOf(bs)
  {
    var i := FindGuest(dir, b.email);
    if i >= 0 {
      assert dir[i].email in EmailsOf(bs);
    }
  }

  /** Each distinct e-mail has exactly one entry, holding its bookings'
      count, summed amount, latest check-in and first name and phone. */
  lemma DirectoryEntry(bs: seq<Booking>, e: string)
    requires e in EmailsOf(bs)
    ensures var dir := Directory(bs); var i := FindGuest(dir, e);
      && 0 <= i < |dir| && dir[i].email == e
      && (forall j :: 0 <= j < |dir| && j != i ==> dir[j].email != e)
      && dir[i].stays == CountWithEmail(bs, e)
      && dir[i].spent == SpentWithEmail(bs, e)
      && dir[i].lastVisit == LatestCheckIn(bs, e)
      && dir[i].name == bs[FirstIndex(bs, e)].guest
      && dir[i].phone == PhoneOrNA(bs[FirstIndex(bs, e)].phone)
  {
    var dir := Directory(bs);
    var i := FindGuest(dir, e);
    var g := dir[i];
    assert DistinctEmails(dir);
    assert g.email in EmailsOf(bs) && Summarises(g, bs);
    assert forall j :: 0 <= j < |dir| && j != i ==> dir[j].email != e;
    var first := bs[FirstIndex(bs, e)];
    assert g.stays == CountWithEmail(bs, e) && g.spent == SpentWithEmail(bs, e);
    assert g.lastVisit == LatestCheckIn(bs, e);
    assert g.name == first.guest && g.phone == PhoneOrNA(first.phone);
  }
}

=== FILE: numerals.dfy ===
/** Decimal text and numbers: `String(n)` for integers below 10^21 in
    magnitude, `parseInt(s, 10)` and `padStart(2, '0')`. */
module Numerals {
  import opened Results
  import opened Text

  predicate IsDigit(c: char) {
    '0' <= c <= '9'
  }

  predicate AllDigits(s: string) {
    forall k :: 0 <= k < |s| ==> IsDigit(s[k])
  }

  function DigitChar(d: nat): (c: char)
    requires d < 10
    ensures IsDigit(c) && c as int - '0' as int == d
  {
    ('0' as int + d) as char
  }

  function DigitValue(c: char): (d: nat)
    requires IsDigit(c)
    ensures d < 10 && DigitChar(d) == c
  {
    c as int - '0' as int
  }

  /** The number a string of decimal digits denotes (leading zeros allowed). */
  function DecimalValue(s: string): nat
    requires AllDigits(s)
  {
    if |s| == 0 then 0 else DecimalValue(s[..|s| - 1]) * 10 + DigitValue(s[|s| - 1])
  }

  /** The decimal spelling of a non-negative integer, without leading
      zeros; `String(n)` for n below 10^21. */
  function NatToDecimal(n: nat): (r: string)
    ensures |r| > 0 && AllDigits(r)
    ensures |r| > 1 ==> r[0] != '0'
    ensures n < 10 <==> |r| == 1
  {
    if n < 10 then [DigitChar(n)] else NatToDecimal(n / 10) + [DigitChar(n % 10)]
  }

  /** The decimal spelling of any integer, with `-` for a negative one. */
  function IntToDecimal(n: int): (r: string)
    ensures |r| > 0
    ensures n < 0 <==> r[0] == '-'
  {
    if n < 0 then "-" + NatToDecimal(-n) else NatToDecimal(n)
  }

  /** Reading back the spelling of `n` gives `n`. */
  lemma {:induction false} DecimalRoundTrip(n: nat)
    ensures DecimalValue(NatToDecimal(n)) == n
  {
    if n >= 10 {
      var s := NatToDecimal(n);
      assert s[..|s| - 1] == NatToDecimal(n / 10);
      DecimalRoundTrip(n / 10);
    }
  }

  /** The longest prefix of `s` made of decimal digits. */
  function LeadingDigits(s: string): (r: string)
    ensures |r| <= |s| && r == s[..|r|] && AllDigits(r)
    ensures |r| < |s| ==> !IsDigit(s[|r|])
  {
    if |s| > 0 && IsDigit(s[0]) then [s[0]] + LeadingDigits(s[1..]) else ""
  }

  /** `parseInt(s, 10)`: skip leading whitespace, read an optional sign and
      then the longest run of digits; `None` stands for `NaN` (no digit). */
  function ParseInt(s: string): Option<int> {
    var t := TrimStart(s);
    var signed := |t| > 0 && (t[0] == '-' || t[0] == '+');
    var body := if signed then t[1..] else t;
    var ds := LeadingDigits(body);
    var v: int := if |ds| == 0 then 0 else DecimalValue(ds);
    if |ds| == 0 then None
    else if signed && t[0] == '-' then Some(-v)
    else Some(v)
  }

  /** `parseInt(String(n), 10) == n`: rendering then parsing an integer
      is the identity. */
  lemma ParseIntRoundTrip(n: int)
    ensures ParseInt(IntToDecimal(n)) == Some(n)
  {
    var s := IntToDecimal(n);
    var m: nat := if n < 0 then -n else n;
    var d := NatToDecimal(m);
    AllDigitsPrefix(d);
    DecimalRoundTrip(m);
    assert !IsSpace(s[0]);
    assert TrimStart(s) == s;
    if n < 0 {
      assert s == "-" + d;
      assert s[1..] == d;
    } else {
      assert s == d;
      assert !(s[0] == '-' || s[0] == '+');
    }
  }

  lemma {:induction false} AllDigitsPrefix(s: string)
    requires AllDigits(s)
    ensures LeadingDigits(s) == s
  {
    if |s| > 0 {
      AllDigitsPrefix(s[1..]);
    }
  }

  /** `parseInt` yields `NaN` when the first character after the leading
      whitespace is neither a digit nor a sign. */
  lemma ParseIntRejectsNonNumeric(s: string)
    requires var t := TrimStart(s); |t| == 0 || (!IsDigit(t[0]) && t[0] != '-' && t[0] != '+')
    ensures ParseInt(s) == None
  {
  }

  /** `s.padStart(2, '0')`. */
  function PadStart2(s: string): (r: string)
    ensures |s| >= 2 ==> r == s
    ensures |s| < 2 ==> |r| == 2 && r[2 - |s|..] == s
    ensures forall k :: 0 <= k < |r| - |s| ==> r[k] == '0'
    decreases 2 - |s|
  {
    if |s| >= 2 then s else PadStart2("0" + s)
  }
}

=== FILE: pricing.dfy ===
/** Nightly room prices and how the public pages pick them up: a room's
    name is matched against the room-type keywords to find its price. */
module RoomPricing {
  import opened Results
  import opened Text
  import opened Numerals

  datatype RoomType = Single | Deluxe | Family

  /** The `prices` object of the settings record. */
  datatype Prices = Prices(single: int, deluxe: int, family: int)

  /** The prices used when the settings record cannot be read. */
  const DefaultPrices := Prices(180, 320, 420)

  function PriceOf(p: Prices, t: RoomType): int {
    match t
    case Single => p.single
    case Deluxe => p.deluxe
    case Family => p.family
  }

  function Keyword(t: RoomType): string {
    match t
    case Single => "single"
    case Deluxe => "deluxe"
    case Family => "family"
  }

  /** `getPricing`: the fetched prices, or the defaults when there is no
      database client or no settings row. */
  function PricingOrDefault(fetched: Option<Prices>): (p: Prices)
    ensures fetched.Some? ==> p == fetched.value
    ensures fetched.None? ==> p.single == 180 && p.deluxe == 320 && p.family == 420
  {
    fetched.GetOr(DefaultPrices)
  }

  /** The room type whose keyword a lower-cased name contains, trying
      `single`, then `deluxe`, then `family`; the first match wins. */
  function RoomTypeOfName(name: string): (r: Option<RoomType>)
    ensures r == Some(Single) <==> Contains(name, "single")
    ensures r == Some(Deluxe) <==> !Contains(name, "single") && Contains(name, "deluxe")
    ensures r == Some(Family) <==> !Contains(name, "single") && !Contains(name, "deluxe") && Contains(name, "family")
    ensures r == None <==> forall t: RoomType :: !Contains(name, Keyword(t))
  {
    if Contains(name, "single") then assert Contains(name, Keyword(Single)); Some(Single)
    else if Contains(name, "deluxe") then assert Contains(name, Keyword(Deluxe)); Some(Deluxe)
    else if Contains(name, "family") then assert Contains(name, Keyword(Family)); Some(Family)
    else None
  }

  /** The price a room name resolves to; 0 when no keyword matches. */
  function PriceForName(p: Prices, name: string): int {
    match RoomTypeOfName(Lower(name))
    case Some(t) => PriceOf(p, t)
    case None => 0
  }

  /** A room card on the public pages: its `.room-name` text, its
      `.amount` text and, for its booking button, the link's `price`
      query parameter. Absent elements are `None`. */
  datatype RoomCard = RoomCard(name: Option<string>, amount: Option<string>, bookLink: Option<BookLink>)
  datatype BookLink = BookLink(priceParam: Option<string>)

  /** The card's displayed amount for a positive price. */
  function AmountText(price: int): string {
    "₱" + IntToDecimal(price)
  }

  /** Pricing one room card: a card whose name resolves to a positive
      price shows that price and links to the booking page with it; any
      other card is left as it is. */
  function PriceCard(p: Prices, card: RoomCard): (r: RoomCard)
    ensures r.name == card.name
    ensures (card.name.None? || PriceForName(p, card.name.value) <= 0) ==> r == card
    ensures card.name.Some? && PriceForName(p, card.name.value) > 0 ==>
      var price := PriceForName(p, card.name.value);
      && (card.amount.Some? <==> r.amount.Some?)
      && (r.amount.Some? ==> r.amount.value == AmountText(price))
      && (card.bookLink.Some? <==> r.bookLink.Some?)
      && (r.bookLink.Some? ==> r.bookLink.value.priceParam == Some(IntToDecimal(price)))
  {
    var price := if card.name.Some? then PriceForName(p, card.name.value) else 0;
    if price > 0 then
      RoomCard(
        card.name,
        if card.amount.Some? then Some(AmountText(price)) else None,
        if card.bookLink.Some? then Some(BookLink(Some(IntToDecimal(price)))) else None)
    else card
  }

  /** An `<option>` of the booking form's room select: its value and its
      `data-price` attribute. */
  datatype RoomOption = RoomOption(value: string, price: string)

  /** Pricing one room option: a matched option gets the price of its type
      (whatever its sign, unlike the cards); an unmatched one keeps its
      attribute. */
  function PriceOption(p: Prices, opt: RoomOption): (r: RoomOption)
    ensures r.value == opt.value
    ensures RoomTypeOfName(Lower(opt.value)).None? ==> r == opt
    ensures RoomTypeOfName(Lower(opt.value)).Some? ==>
      ParseInt(r.price) == Some(PriceOf(p, RoomTypeOfName(Lower(opt.value)).value))
  {
    match RoomTypeOfName(Lower(opt.value))
    case Some(t) =>
      ParseIntRoundTrip(PriceOf(p, t));
      RoomOption(opt.value, IntToDecimal(PriceOf(p, t)))
    case None => opt
  }

  /** `parseInt(x, 10) || 0`: an unparseable price counts as 0. */
  function PriceOrZero(s: string): int {
    ParseInt(s).GetOr(0)
  }

  /** After pricing, the booking form reads back exactly the configured
      price of the option's room type, and 0 for an unmatched option
      whose attribute does not parse. */
  lemma PricedOptionReadsBack(p: Prices, opt: RoomOption)
    ensures var r := PriceOption(p, opt);
      PriceOrZero(r.price) == (if RoomTypeOfName(Lower(opt.value)).Some? then PriceForName(p, opt.value) else PriceOrZero(opt.price))
  {
  }

  /** A name containing "single" is priced as a single room whatever other
      keyword it also contains. */
  lemma SingleKeywordWins(p: Prices, name: string)
    requires Contains(Lower(name), "single")
    ensures PriceForName(p, name) == p.single
  {
  }
}

=== FILE: results.dfy ===
/** Failure-carrying wrappers used throughout the model: an absent value
    (an empty form field, an unparseable number) and an operation that is
    either accepted or rejected with a reason. */
module Results {

  datatype Option<+T> = None | Some(value: T) {

    /** The wrapped value, or `default` when absent (JavaScript's `x || d`
        for values whose falsy cases are all modelled as `None`). */
    function GetOr(default: T): T {
      match this
      case Some(v) => v
      case None => default
    }
  }

  datatype Result<+R, +E> = Success(value: R) | Failure(error: E)
}

=== FILE: settings.dfy ===
/** Editing the settings record from the dashboard: the per-room-type
    inventory counts and the three nightly prices. */
module Settings {
  import opened Results
  import opened Numerals
  import opened RoomPricing

  /** The `inventory` object: room-type id to number of rooms. */
  type Inventory = map<string, int>

  datatype InventoryError = InvalidCount

  /** `updateInventory`'s validation and merge: the typed count must parse
      and be non-negative; then only `roomType`'s entry takes the new
      count. */
  function UpdateInventory(inv: Inventory, roomType: string, input: string): (r: Result<Inventory, InventoryError>)
    ensures r.Failure? <==> ParseInt(input).None? || ParseInt(input).value < 0
    ensures r.Success? ==>
      && r.value.Keys == inv.Keys + {roomType}
      && r.value[roomType] == ParseInt(input).value
      && (forall k :: k in inv && k != roomType ==> r.value[k] == inv[k])
  {
    match ParseInt(input)
    case None => Failure(InvalidCount)
    case Some(n) => if n < 0 then Failure(InvalidCount) else Success(inv[roomType := n])
  }

  /** The stored inventory after an attempt: changed only when the count
      was valid and the write went through. */
  function InventoryAfter(inv: Inventory, roomType: string, input: string, written: bool): (r: Inventory)
    ensures UpdateInventory(inv, roomType, input).Failure? || !written ==> r == inv
    ensures UpdateInventory(inv, roomType, input).Success? && written ==> r == UpdateInventory(inv, roomType, input).value
    ensures forall k :: k in inv && k != roomType ==> k in r && r[k] == inv[k]
  {
    match UpdateInventory(inv, roomType, input)
    case Failure(_) => inv
    case Success(next) => if written then next else inv
  }

  /** Typing the spelling of a count sets that count. */
  lemma InventoryRoundTrip(inv: Inventory, roomType: string, n: nat)
    ensures UpdateInventory(inv, roomType, NatToDecimal(n)) == Success(inv[roomType := n])
  {
    ParseIntRoundTrip(n);
    assert IntToDecimal(n) == NatToDecimal(n);
  }

  /** A negative count is refused and the stored inventory kept. */
  lemma NegativeCountRejected(inv: Inventory, roomType: string, n: int, written: bool)
    requires n < 0
    ensures UpdateInventory(inv, roomType, IntToDecimal(n)) == Failure(InvalidCount)
    ensures InventoryAfter(inv, roomType, IntToDecimal(n), written) == inv
  {
    ParseIntRoundTrip(n);
  }

  /** Recording the same count twice leaves what recording it once left. */
  lemma UpdateInventoryIdempotent(inv: Inventory, roomType: string, input: string)
    requires UpdateInventory(inv, roomType, input).Success?
    ensures var once := UpdateInventory(inv, roomType, input).value;
      UpdateInventory(once, roomType, input) == Success(once)
  {
    var once := UpdateInventory(inv, roomType, input).value;
    assert once[roomType := ParseInt(input).value] == once;
  }

  datatype PricingError = InvalidPrice

  /** `savePricing`: each of the three price texts must parse as an
      integer (a negative one is accepted). */
  function SavePricing(single: string, deluxe: string, family: string): (r: Result<Prices, PricingError>)
    ensures r.Success? <==> ParseInt(single).Some? && ParseInt(deluxe).Some? && ParseInt(family).Some?
    ensures r.Success? ==>
      r.value == Prices(ParseInt(single).value, ParseInt(deluxe).value, ParseInt(family).value)
  {
    match (ParseInt(single), ParseInt(deluxe), ParseInt(family))
    case (Some(s), Some(d), Some(f)) => Success(Prices(s, d, f))
    case _ => Failure(InvalidPrice)
  }

  /** Saving the prices the dashboard displays stores them unchanged. */
  lemma SavePricingRoundTrip(p: Prices)
    ensures SavePricing(IntToDecimal(p.single), IntToDecimal(p.deluxe), IntToDecimal(p.family)) == Success(p)
  {
    ParseIntRoundTrip(p.single);
    ParseIntRoundTrip(p.deluxe);
    ParseIntRoundTrip(p.family);
  }

  /** An unparseable price anywhere rejects the whole save. */
  lemma SavePricingRejectsOneBad(single: string, deluxe: string, family: string)
    requires ParseInt(single).None? || ParseInt(deluxe).None? || ParseInt(family).None?
    ensures SavePricing(single, deluxe, family) == Failure(InvalidPrice)
  {
  }
}

=== FILE: text.dfy ===
/** String helpers with JavaScript's meaning: the whitespace class shared by
    `\s` and `String.prototype.trim`, `trim`, `includes`, `toLowerCase`
    (ASCII letters only) and `length` counted in UTF-16 code units. */
module Text {

  /** ECMAScript WhiteSpace and LineTerminator code points. */
  predicate IsSpace(c: char) {
    || c == '\t' || c == '\n' || c == '\U{000B}' || c == '\U{000C}' || c == '\r'
    || c == ' ' || c == '\U{00A0}' || c == '\U{1680}'
    || ('\U{2000}' <= c <= '\U{200A}')
    || c == '\U{2028}' || c == '\U{2029}' || c == '\U{202F}' || c == '\U{205F}'
    || c == '\U{3000}' || c == '\U{FEFF}'
  }

  predicate NoSpace(s: string) {
    forall k :: 0 <= k < |s| ==> !IsSpace(s[k])
  }

  /** `s` with its leading whitespace removed. */
  function TrimStart(s: string): (r: string)
    ensures |r| <= |s| && r == s[|s| - |r|..]
    ensures forall k :: 0 <= k < |s| - |r| ==> IsSpace(s[k])
    ensures |r| > 0 ==> !IsSpace(r[0])
  {
    if |s| > 0 && IsSpace(s[0]) then TrimStart(s[1..]) else s
  }

  /** `s` with its trailing whitespace removed. */
  function TrimEnd(s: string): (r: string)
    ensures |r| <= |s| && r == s[..|r|]
    ensures forall k :: |r| <= k < |s| ==> IsSpace(s[k])
    ensures |r| > 0 ==> !IsSpace(r[|r| - 1])
  {
    if |s| > 0 && IsSpace(s[|s| - 1]) then TrimEnd(s[..|s| - 1]) else s
  }

  /** `String.prototype.trim`: the slice of `s` between its leading and
      trailing whitespace. */
  function Trim(s: string): (r: string)
    ensures exists i :: OccursAt(s, r, i) && OnlySpaceOutside(s, i, i + |r|)
    ensures |r| > 0 ==> !IsSpace(r[0]) && !IsSpace(r[|r| - 1])
    ensures NoSpace(s) ==> r == s
  {
    var t := TrimStart(s);
    TrimEnds(s, t, TrimEnd(t));
    TrimEnd(t)
  }

  /** What the contracts of `TrimStart` and `TrimEnd` give for
      `r = TrimEnd(t)` with `t = TrimStart(s)`. */
  lemma TrimEnds(s: string, t: string, r: string)
    requires |t| <= |s| && t == s[|s| - |t|..] && |r| <= |t| && r == t[..|r|]
    requires forall k :: 0 <= k < |s| - |t| ==> IsSpace(s[k])
    requires forall k :: |r| <= k < |t| ==> IsSpace(t[k])
    requires |t| > 0 ==> !IsSpace(t[0])
    requires |r| > 0 ==> !IsSpace(r[|r| - 1])
    ensures exists i :: OccursAt(s, r, i) && OnlySpaceOutside(s, i, i + |r|)
    ensures |r| > 0 ==> !IsSpace(r[0]) && !IsSpace(r[|r| - 1])
    ensures NoSpace(s) ==> r == s
  {
    var i := |s| - |t|;
    assert s[i..i + |r|] == r;
    forall k | i + |r| <= k < |s| ensures IsSpace(s[k]) {
      assert s[k] == t[k - i];
    }
    assert OccursAt(s, r, i);
    if |r| > 0 {
      assert r[0] == t[0];
    }
    assert |r| < |t| ==> IsSpace(t[|r|]);
    if NoSpace(s) {
      if |s| > 0 {
        assert !IsSpace(s[0]);
      }
      assert t == s;
    }
  }

  /** Everything of `s` outside `s[lo..hi]` is whitespace. */
  predicate OnlySpaceOutside(s: string, lo: int, hi: int)
    requires 0 <= lo <= hi <= |s|
  {
    (forall k :: 0 <= k < lo ==> IsSpace(s[k])) && (forall k :: hi <= k < |s| ==> IsSpace(s[k]))
  }

  /** Trimming twice trims nothing more. */
  lemma TrimIdempotent(s: string)
    ensures Trim(Trim(s)) == Trim(s)
  {
    var r := Trim(s);
    if |r| > 0 {
      assert TrimStart(r) == r;
      assert TrimEnd(r) == r;
    }
  }

  /** The number of UTF-16 code units JavaScript's `length` reports. */
  function Utf16Length(s: string): (n: nat)
    ensures |s| <= n <= 2 * |s|
  {
    if |s| == 0 then 0
    else Utf16Length(s[..|s| - 1]) + (if s[|s| - 1] as int > 0xFFFF then 2 else 1)
  }

  function LowerChar(c: char): char {
    if 'A' <= c <= 'Z' then (c as int + 32) as char else c
  }

  function UpperChar(c: char): char {
    if 'a' <= c <= 'z' then (c as int - 32) as char else c
  }

  /** `toLowerCase` on ASCII letters; every other character is kept. */
  function Lower(s: string): (r: string)
    ensures |r| == |s|
    ensures forall k :: 0 <= k < |s| ==> r[k] == LowerChar(s[k])
  {
    seq(|s|, k requires 0 <= k < |s| => LowerChar(s[k]))
  }

  /** `s.charAt(0).toUpperCase() + s.slice(1)`. */
  function Capitalize(s: string): (r: string)
    ensures |r| == |s|
    ensures |s| > 0 ==> r[0] == UpperChar(s[0]) && r[1..] == s[1..]
  {
    if |s| == 0 then s else [UpperChar(s[0])] + s[1..]
  }

  /** `s.includes(sub)`: `sub` occurs in `s` at some position. */
  predicate Contains(s: string, sub: string) {
    exists i :: 0 <= i <= |s| - |sub| && OccursAt(s, sub, i)
  }

  /** `sub` occurs in `s` starting at index `i`. */
  predicate OccursAt(s: string, sub: string, i: int) {
    0 <= i && i + |sub| <= |s| && s[i..i + |sub|] == sub
  }

  /** Occurrences in `s[1..]` are the occurrences in `s` after index 0. */
  lemma OccursAtShift(s: string, sub: string)
    requires |s| > 0
    ensures forall k :: 1 <= k ==> (OccursAt(s, sub, k) <==> OccursAt(s[1..], sub, k - 1))
  {
    forall k | 1 <= k
      ensures OccursAt(s, sub, k) <==> OccursAt(s[1..], sub, k - 1)
    {
      if k + |sub| <= |s| {
        var t := s[1..];
        var a, b := s[k..k + |sub|], t[k - 1..k - 1 + |sub|];
        assert forall j :: 0 <= j < |a| ==> a[j] == b[j];
        assert a == b;
      }
    }
  }

  /** Every string includes the empty string. */
  lemma ContainsEmpty(s: string)
    ensures Contains(s, "")
  {
    assert OccursAt(s, "", 0);
  }
}
